=== FILE: README.md ===
# RNNVis sentiment-dataset seeding, modelled in Dafny

This project models the data-shaping in RNNVis's sentiment-prediction seeding module
(`rnnvis/db/sentiment_prediction.py`). The module loads two corpora, the Stanford Sentiment
Treebank (SST) and IMDB, and writes them to a document store as word maps, sentence
documents and per-split `{data, label, ids}` records. The model is functional. Each pipeline
is a pure function that returns a `Run`: the trace of store actions it would perform, plus
the Python exception that stopped it, if any. The seeder is a fold over the configured
entries that collects those traces.

Modules, one file each:

- `Outcomes` (outcomes.dfy): `Option`, `Result`, and `Failure`. `Failure` lists the
  exceptions the modelled code raises itself: TypeError, AttributeError, IndexError and
  ValueError.
- `Builtins` (builtins.dfy): the Python built-ins the module uses. These are `zip` (which
  stops at the shortest argument), `a, b = zip(*xs)` (a ValueError when `xs` is empty),
  `range`, and `dict` over a list of pairs (the last value given for a key wins).
- `Labels` (labels.dfy): the five-class sentiment discretizer.
- `Store` (store.dfy): the insertion-strategy enum, the documents, the trace actions, and
  a few facts about traces.
- `SstPipeline` (sst.dfy): `store_sst`.
- `ImdbPipeline` (imdb.dfy): `store_imdb`.
- `Seeder` (seeder.dfy): `seed_db`.

The model treats what the code calls but does not define as parameters. This covers the SST
corpus processor, the IMDB loaders and the shuffling splitter. The seeder receives them
bundled in an `Env` value. The pipeline then works on whatever they return.

Where the code and its comments disagree, the model follows the code:

- The comment before the discretizer says the classes are 1..5. The expression yields 0..4,
  and so does the model.
- The configuration describes a "split scheme" per entry. But `seed['scheme']` is passed to
  the pipeline as keyword arguments (`**seed['scheme']`). So the model treats it as a keyword
  map: an SST entry must hold `split_scheme`, and an IMDB entry may hold `n_words`. A keyword
  the pipeline does not accept is a TypeError, and so is a missing `split_scheme`.
- The IMDB `ids` list has the length of the split's `data`. Its `label` list is passed
  through unchanged, so the three lists are not promised equal lengths there. Only the SST
  records are length-aligned.

## Model

`Seeder.Fold` and `Seeder.Finish` compute the loop and the marker step; their properties are stated by the `Seeder.FoldCompletes`, `Seeder.FoldAborts`, `Seeder.FoldMarkers` and `Seeder.FinishProps` rows.

| member | source | states |
|---|---|---|
| Labels.Bucket | rnnvis/db/sentiment_prediction.py:86 | every score gets a class in 0..4 |
| Labels.Discretize | rnnvis/db/sentiment_prediction.py:85-86 | a label list keeps its length, and position i holds the class of score i (in 0..4) |
| Labels.BucketCountsBoundariesBelow | rnnvis/db/sentiment_prediction.py:86 | the class of a score equals how many of the boundaries 0.2, 0.4, 0.6, 0.8 lie strictly below it |
| Labels.BucketInterval | rnnvis/db/sentiment_prediction.py:86 | a score is in class k if and only if it lies in (Thresholds[k-1], Thresholds[k]]: upper bounds inclusive, open-ended at both ends |
| Labels.BucketMonotone | rnnvis/db/sentiment_prediction.py:86 | a larger score never gets a smaller class |
| Labels.BucketExamples | rnnvis/db/sentiment_prediction.py:86 | 0.2 gives 0, 0.2000001 gives 1, 0.8 gives 3, 0.8000001 gives 4, and out-of-range scores fall into classes 0 and 4 |
| Store.StrategyFor | rnnvis/db/sentiment_prediction.py:55-58 | upsert selects replace-if-exists and otherwise insert-if-absent (the same choice is made at lines 92-95); that every write uses it is stated by the StoreSst, StoreImdb and SeedDb rows |
| Builtins.Zip | rnnvis/db/sentiment_prediction.py:67 | the pairing is as long as the shorter list, and pair i holds the i-th elements |
| Builtins.Zip3 | rnnvis/db/sentiment_prediction.py:65 | the triples are as long as the shortest list, and triple i holds the i-th elements |
| Builtins.Range | rnnvis/db/sentiment_prediction.py:65 | range(lo, hi) has max(0, hi-lo) elements, and element i is lo+i |
| Builtins.Unzip | rnnvis/db/sentiment_prediction.py:74 | unpacking succeeds exactly on a non-empty list, and zipping the two columns gives back the list |
| Builtins.Unzip3 | rnnvis/db/sentiment_prediction.py:83 | unpacking triples succeeds exactly on a non-empty list, and zipping the three columns gives back the list |
| Builtins.DictOf | rnnvis/db/sentiment_prediction.py:67 | the dict's keys are exactly the listed keys, and each key maps to the value of its last occurrence |
| Builtins.DictOfValueListed | rnnvis/db/sentiment_prediction.py:67 | every entry of the dict is one of the listed pairs, so dict(zip(keys, chunks)) only holds chunks the splitter returned |
| SstPipeline.Triples | rnnvis/db/sentiment_prediction.py:65 | there are as many triples as the shorter of ids and labels, and triple i carries sentence i, score i and original index i+1 |
| SstPipeline.SplitDict | rnnvis/db/sentiment_prediction.py:66-67 | the split dict's keys are the scheme keys paired with a chunk, and the k-th key names the k-th chunk |
| SstPipeline.TrainPairedIff | rnnvis/db/sentiment_prediction.py:67-78 | train is in the split dict exactly when some scheme key paired with a chunk is train |
| SstPipeline.NativeSentences | rnnvis/db/sentiment_prediction.py:73-76 | the native split is written as one sentences document per set, in train/valid/test order, each written set non-empty and its doc's data and ids zipping back to the set's pairs; the loop stops at the first set that is missing (IndexError) or empty (ValueError) |
| SstPipeline.ChunkSplit | rnnvis/db/sentiment_prediction.py:83-87 | one chunk unpacks exactly when it is non-empty, into data, label and ids that match the chunk's triples position by position, with the labels discretized |
| SstPipeline.SstDict | rnnvis/db/sentiment_prediction.py:80-87 | the dict holds the present split names in train/valid/test order, and building it fails exactly when a present chunk is empty |
| SstPipeline.SstDictColumns | rnnvis/db/sentiment_prediction.py:81-87 | every stored split holds the columns of its own chunk: equal lengths, the same sentences and indices, and the discretized scores in the same order |
| SstPipeline.SstDictKeys | rnnvis/db/sentiment_prediction.py:80-87 | the dict's keys are exactly the members of train/valid/test present in the split dict; other scheme keys are dropped |
| SstPipeline.SstDictTraceable | rnnvis/db/sentiment_prediction.py:65-87 | when the chunks hold corpus triples, every stored index i is in 1..n and points at the stored sentence, and its label is the class of score i |
| SstPipeline.StoreSstTraceable | rnnvis/db/sentiment_prediction.py:65-88 | when the splitter only returns items of the list it is given, every split that a finished store_sst stores traces back to the corpus: each stored index i is in 1..n, its sentence is sentence i and its label is the class of score i |
| SstPipeline.FourSentenceScenario | rnnvis/db/sentiment_prediction.py:65-86 | scores 0.1, 0.3, 0.55, 0.95 give classes 0, 1, 2, 4 with indices 1 to 4 |
| SstPipeline.SstSplits | rnnvis/db/sentiment_prediction.py:73-88 | all writes after the word maps use the selected strategy, and no marker or skip is emitted |
| SstPipeline.SstWarnsWithoutTrain | rnnvis/db/sentiment_prediction.py:78-79 | the warning appears exactly when the native split was stored and the split dict has no train |
| SstPipeline.SstSplitsOutcome | rnnvis/db/sentiment_prediction.py:73-88 | the pipeline finishes exactly when the native split is complete and non-empty and every present chunk is non-empty; it then writes the three sentence documents and ends by storing the data dict |
| SstPipeline.StoreSst | rnnvis/db/sentiment_prediction.py:45-88 | the first two actions write word_to_id and id_to_word keyed by name, every write uses replace-if-exists exactly when upsert is set (lines 55-58), and nothing emitted is a marker or skip |
| SstPipeline.StoreSstOutcome | rnnvis/db/sentiment_prediction.py:65-88 | store_sst finishes exactly when the native split is complete and non-empty and every present scheme chunk is non-empty; it then writes the three sentence documents after the word maps and ends by storing the data dict; it warns exactly when the native split was stored and the split dict lacks train |
| SstPipeline.SstSplitsTrace | rnnvis/db/sentiment_prediction.py:73-88 | if the native split is incomplete or has an empty set, the trace is just the native writes up to the failure; otherwise the trace starts with exactly the three native sentence writes, followed by the warning when train is missing, and ends with the data-dict store only when the split dict succeeds; a failure there is ValueError, raised after those writes |
| SstPipeline.StoreSstTrace | rnnvis/db/sentiment_prediction.py:45-88 | after the two word-map writes, store_sst's trace and failure are those of the native-split stage when that stage fails; otherwise positions 2-4 hold the three native sentence writes, position 5 the warning when train is missing, the trace length is fixed by whether train is present and whether the run finished, and a failure is ValueError |
| ImdbPipeline.IndexedSplit | rnnvis/db/sentiment_prediction.py:104-108 | data and label pass through, and ids is the dense index 0..len(data)-1 |
| ImdbPipeline.ImdbDict | rnnvis/db/sentiment_prediction.py:102-108 | with at least three loaded pairs, the dict has exactly train, valid and test, in order, each with ids = [0..len(data)-1]; with fewer, it fails with IndexError |
| ImdbPipeline.StoreImdb | rnnvis/db/sentiment_prediction.py:91-109 | it writes the two word maps with the strategy upsert selects (lines 92-95), then stores the data dict; with fewer than three loaded pairs it stops after the word maps |
| Seeder.SeedEntry | rnnvis/db/sentiment_prediction.py:120-131 | every write uses the strategy force selects; an unknown type yields exactly one skip and no marker; a finished sst/imdb entry ends with its one completion marker; an entry that raises leaves no marker |
| Seeder.BindSst | rnnvis/db/sentiment_prediction.py:123-125 | binding the scheme as keyword arguments fails exactly on an unknown keyword, a missing split_scheme or a non-mapping split_scheme; the first two are TypeError, the last AttributeError; on success the pipeline gets that split_scheme and the truth value of upsert |
| Seeder.BindImdb | rnnvis/db/sentiment_prediction.py:126-127 | binding fails with TypeError exactly on a keyword other than n_words and upsert; on success n_words is the given value or 100000, and upsert is its truth value |
| Seeder.SstDispatched | rnnvis/db/sentiment_prediction.py:123-131 | an sst entry runs the SST pipeline on its own dir, name and split_scheme with upsert = force; its trace is the pipeline's trace, plus the marker when the pipeline finished, and it raises what the pipeline raises; a binding failure raises before anything is written |
| Seeder.ImdbDispatched | rnnvis/db/sentiment_prediction.py:123-131 | an imdb entry runs the IMDB pipeline on its own dir, name and n_words with upsert = force; its trace is the pipeline's trace, plus the marker when the pipeline finished; a binding failure raises TypeError before anything is written |
| Seeder.UpsertOverridden | rnnvis/db/sentiment_prediction.py:123-127 | whatever the configured scheme says about upsert, both pipelines receive upsert = force |
| Seeder.SeedDb | rnnvis/db/sentiment_prediction.py:112-131 | every write of the whole run uses the strategy that force selects |
| Seeder.FoldCompletes | rnnvis/db/sentiment_prediction.py:120-131 | the loop finishes exactly when no entry raises, and its trace is then the entries' traces in order |
| Seeder.FoldAborts | rnnvis/db/sentiment_prediction.py:120-131 | after the first raising entry nothing further happens: the trace is the earlier traces plus the failing entry's own |
| Seeder.FoldMarkers | rnnvis/db/sentiment_prediction.py:120-131 | the markers of a finished loop are those of its entries, in order |
| Seeder.FinishProps | rnnvis/db/sentiment_prediction.py:124-131 | the marker for an entry is added exactly when its pipeline finished: a finished entry ends with its own marker and contributes exactly its name as marker, a failed one none and keeps its exception, and the write strategy is kept |
| Seeder.SeedDbCompletes | rnnvis/db/sentiment_prediction.py:120-131 | a seeding run finishes exactly when every entry finishes, and its trace is then the concatenation of the entries' traces in config order |
| Seeder.SeedDbAborts | rnnvis/db/sentiment_prediction.py:120-131 | when an entry raises, the run's exception is that entry's, and its trace is the traces of the entries before it plus that entry's partial trace |
| Seeder.SeedDbMarkers | rnnvis/db/sentiment_prediction.py:120-131 | a finished run holds exactly one completion marker per sst or imdb entry, in config order, and none for other types |

## Left out

- Download and path checks (`path_exists`, `download_sst`) and directory resolution (`get_path`). They are filesystem and network I/O. The `Env` functions receive the entry's `dir` as given.
- Reading the YAML configuration. The seeder receives the parsed `datasets` list as a sequence of entries.
- The corpus processor, the IMDB loaders, `split` and `dict2json`. These are not part of this model. Their outputs are parameters. `split` is an arbitrary function, but one function serves a whole seed_db run: two sst entries with the same corpus and proportions get the same chunks in the model, whereas the source reshuffles on every call. Whether the chunks partition the triples is not assumed. `SstDictTraceable` takes as a hypothesis that the chunks hold corpus triples, and `StoreSstTraceable` only that the splitter returns items of its input. The splitter's proportions are not constrained, so no lemma says how many triples each set receives.
- The store primitives (`insert_one_if_not_exists`, `replace_one_if_exists`, `store_dataset_by_default`, `dataset_inserted`). They appear as trace actions. Their effect on a database, including idempotence across runs, is not modelled.
- The word-map round trip between `word_to_id` and `id_to_word`, and the `n_words` cap. Both are properties of the loaders. `n_words` is passed through unchanged.
- Printed text. The progress line is dropped. The two warnings become the `WarnNoTrain` and `Skipped` actions.
- `float()` conversion, floating-point rounding and NaN. Scores are Dafny reals. A NaN score would compare false everywhere and land in class 4 in the source.
- Malformed values the Python would only trip over later: a non-pair inside a native split, a non-list loader result, a non-numeric proportion. The datatypes rule these out by construction.

=== FILE: builtins.dfy ===
/** The Python built-ins the seeding code shapes its records with: `zip`,
    unpacking `zip(*xs)`, `range` and `dict` over a list of pairs. */
module Builtins {
  import opened Outcomes

  function Min(a: nat, b: nat): nat {
    if a <= b then a else b
  }

  /** The first components of a list of pairs (a dict's `.keys()`). */
  function Keys<K, V>(ps: seq<(K, V)>): (ks: seq<K>)
    ensures |ks| == |ps|
    ensures forall i :: 0 <= i < |ps| ==> ks[i] == ps[i].0
  {
    seq(|ps|, i requires 0 <= i < |ps| => ps[i].0)
  }

  /** The second components of a list of pairs (a dict's `.values()`). */
  function Values<K, V>(ps: seq<(K, V)>): (vs: seq<V>)
    ensures |vs| == |ps|
    ensures forall i :: 0 <= i < |ps| ==> vs[i] == ps[i].1
  {
    seq(|ps|, i requires 0 <= i < |ps| => ps[i].1)
  }

  /** `list(zip(a, b))`: stops at the shorter argument. */
  function Zip<A, B>(a: seq<A>, b: seq<B>): (r: seq<(A, B)>)
    ensures |r| == Min(|a|, |b|)
    ensures forall i :: 0 <= i < |r| ==> r[i] == (a[i], b[i])
  {
    if |a| == 0 || |b| == 0 then []
    else [(a[0], b[0])] + Zip(a[1..], b[1..])
  }

  /** `list(zip(a, b, c))`: stops at the shortest argument. */
  function Zip3<A, B, C>(a: seq<A>, b: seq<B>, c: seq<C>): (r: seq<(A, B, C)>)
    ensures |r| == Min(|a|, Min(|b|, |c|))
    ensures forall i :: 0 <= i < |r| ==> r[i] == (a[i], b[i], c[i])
  {
    if |a| == 0 || |b| == 0 || |c| == 0 then []
    else [(a[0], b[0], c[0])] + Zip3(a[1..], b[1..], c[1..])
  }

  /** `list(range(lo, hi))`. */
  function Range(lo: int, hi: int): (r: seq<int>)
    ensures |r| == if lo <= hi then hi - lo else 0
    ensures forall i :: 0 <= i < |r| ==> r[i] == lo + i
    decreases hi - lo
  {
    if hi <= lo then [] else [lo] + Range(lo + 1, hi)
  }

  /** `a, b = zip(*ps)`: the columns of a list of pairs. An empty list unpacks
      into no tuples at all, so the two-name assignment raises ValueError. */
  function Unzip<A, B>(ps: seq<(A, B)>): (r: Result<(seq<A>, seq<B>)>)
    ensures r.Ok? <==> |ps| > 0
    ensures r.Err? ==> r.failure == ValueError
    ensures r.Ok? ==> |r.value.0| == |r.value.1| == |ps|
    ensures r.Ok? ==> Zip(r.value.0, r.value.1) == ps
  {
    if |ps| == 0 then Err(ValueError)
    else
      assert Zip(Keys(ps), Values(ps)) == ps;
      Ok((Keys(ps), Values(ps)))
  }

  /** `a, b, c = zip(*ts)`: the columns of a list of triples; ValueError when
      the list is empty. */
  function Unzip3<A, B, C>(ts: seq<(A, B, C)>): (r: Result<(seq<A>, seq<B>, seq<C>)>)
    ensures r.Ok? <==> |ts| > 0
    ensures r.Err? ==> r.failure == ValueError
    ensures r.Ok? ==> |r.value.0| == |r.value.1| == |r.value.2| == |ts|
    ensures r.Ok? ==> Zip3(r.value.0, r.value.1, r.value.2) == ts
  {
    if |ts| == 0 then Err(ValueError)
    else
      var firsts := seq(|ts|, i requires 0 <= i < |ts| => ts[i].0);
      var seconds := seq(|ts|, i requires 0 <= i < |ts| => ts[i].1);
      var thirds := seq(|ts|, i requires 0 <= i < |ts| => ts[i].2);
      assert Zip3(firsts, seconds, thirds) == ts;
      Ok((firsts, seconds, thirds))
  }

  /** `dict(ps)`: every key of the list becomes a key of the dict, and a key
      listed more than once keeps the value of its last occurrence. */
  function DictOf<K(==), V>(ps: seq<(K, V)>): (m: map<K, V>)
    ensures m.Keys == set i | 0 <= i < |ps| :: ps[i].0
    ensures forall i :: 0 <= i < |ps| ==> ps[i].0 in m
    ensures forall i :: 0 <= i < |ps| && LastOccurrence(ps, i) ==> m[ps[i].0] == ps[i].1
  {
    if |ps| == 0 then map[]
    else
      var init := ps[..|ps| - 1];
      DictOfStep(ps, init, DictOf(init));
      DictOf(init)[ps[|ps| - 1].0 := ps[|ps| - 1].1]
  }

  /** One step of `dict(ps)`: adding the last pair to the dict of the others
      keeps the key set and the last-occurrence values right. */
  lemma DictOfStep<K, V>(ps: seq<(K, V)>, init: seq<(K, V)>, rest: map<K, V>)
    requires |ps| > 0 && init == ps[..|ps| - 1]
    requires rest.Keys == set i | 0 <= i < |init| :: init[i].0
    requires forall i :: 0 <= i < |init| ==> init[i].0 in rest
    requires forall i :: 0 <= i < |init| && LastOccurrence(init, i) ==> rest[init[i].0] == init[i].1
    ensures var m := rest[ps[|ps| - 1].0 := ps[|ps| - 1].1];
            && m.Keys == (set i | 0 <= i < |ps| :: ps[i].0)
            && (forall i :: 0 <= i < |ps| ==> ps[i].0 in m)
            && (forall i :: 0 <= i < |ps| && LastOccurrence(ps, i) ==> m[ps[i].0] == ps[i].1)
  {
    var last := ps[|ps| - 1];
    var m := rest[last.0 := last.1];
    KeysOfLast(ps, init);
    forall i | 0 <= i < |ps| ensures ps[i].0 in m {
      if i < |init| {
        assert init[i] == ps[i];
      }
    }
    forall i | 0 <= i < |ps| && LastOccurrence(ps, i)
      ensures m[ps[i].0] == ps[i].1
    {
      if i < |init| {
        assert ps[|ps| - 1].0 != ps[i].0;
        assert init[i] == ps[i];
        assert LastOccurrence(init, i) by {
          forall j | i < j < |init| ensures init[j].0 != init[i].0 {
            assert init[j] == ps[j];
          }
        }
      }
    }
  }

  /** The keys of a non-empty list are those of all but its last pair, plus
      the last pair's key. */
  lemma KeysOfLast<K, V>(ps: seq<(K, V)>, init: seq<(K, V)>)
    requires |ps| > 0 && init == ps[..|ps| - 1]
    ensures (set i | 0 <= i < |ps| :: ps[i].0) ==
            (set i | 0 <= i < |init| :: init[i].0) + {ps[|ps| - 1].0}
  {
    var whole := set i | 0 <= i < |ps| :: ps[i].0;
    var front := set i | 0 <= i < |init| :: init[i].0;
    forall x | x in whole
      ensures x in front + {ps[|ps| - 1].0}
    {
      var i :| 0 <= i < |ps| && ps[i].0 == x;
      if i < |init| {
        assert init[i].0 == x;
      }
    }
    forall x | x in front + {ps[|ps| - 1].0}
      ensures x in whole
    {
      if x in front {
        var i :| 0 <= i < |init| && init[i].0 == x;
        assert ps[i].0 == x;
      } else {
        assert ps[|ps| - 1].0 == x;
      }
    }
  }

  /** Every entry of `dict(pairs)` is one of the listed pairs. */
  lemma {:induction false} DictOfValueListed<K, V>(ps: seq<(K, V)>, k: K)
    ensures k in DictOf(ps) ==> exists i :: 0 <= i < |ps| && ps[i] == (k, DictOf(ps)[k])
  {
    if k !in DictOf(ps) {
      return;
    }
    var init := ps[..|ps| - 1];
    var last := ps[|ps| - 1];
    assert DictOf(ps) == DictOf(init)[last.0 := last.1];
    if last.0 != k {
      DictOfValueListed(init, k);
      var i :| 0 <= i < |init| && init[i] == (k, DictOf(init)[k]);
      assert ps[i] == init[i];
    }
  }

  /** No later pair of `ps` has the key of the `i`-th pair. */
  predicate LastOccurrence<K(==), V>(ps: seq<(K, V)>, i: int)
    requires 0 <= i < |ps|
  {
    forall j :: i < j < |ps| ==> ps[j].0 != ps[i].0
  }
}

=== FILE: imdb.dfy ===
/** The IMDB pipeline (`store_imdb`): word maps and the three native splits,
    each given a dense positional index. */
module ImdbPipeline {
  import opened Outcomes
  import opened Builtins
  import opened Store

  /** One native split as the loader yields it: sentences and their labels. */
  datatype Labelled = Labelled(data: seq<Sentence>, labels: seq<int>)

  /** What the two loaders yield for a data directory and a vocabulary cap. */
  datatype ImdbCorpus = ImdbCorpus(wordToId: map<string, int>, idToWord: seq<string>, dataLabel: seq<Labelled>)

  /** The split of one loaded pair: its data and labels unchanged, and `ids`
      numbering its sentences from 0. */
  function IndexedSplit(l: Labelled): (sp: Split)
    ensures sp.data == l.data && sp.labels == l.labels
    ensures |sp.ids| == |sp.data|
    ensures forall j :: 0 <= j < |sp.ids| ==> sp.ids[j] == j
  {
    Split(l.data, l.labels, Range(0, |l.data|))
  }

  /** The data dict: train, valid and test from the first three loaded pairs,
      or IndexError when the loader yields fewer than three. */
  function ImdbDict(dataLabel: seq<Labelled>): (r: Result<DataDict>)
    ensures r.Ok? <==> |dataLabel| >= 3
    ensures r.Err? ==> r.failure == IndexError
    ensures r.Ok? ==> Keys(r.value) == SetNames
    ensures r.Ok? ==> forall k :: 0 <= k < 3 ==>
              r.value[k].1.data == dataLabel[k].data && r.value[k].1.labels == dataLabel[k].labels &&
              |r.value[k].1.ids| == |dataLabel[k].data| &&
              forall j :: 0 <= j < |dataLabel[k].data| ==> r.value[k].1.ids[j] == j
  {
    if |dataLabel| < 3 then Err(IndexError)
    else
      var d := [("train", IndexedSplit(dataLabel[0])),
                ("valid", IndexedSplit(dataLabel[1])),
                ("test", IndexedSplit(dataLabel[2]))];
      assert Keys(d) == SetNames;
      Ok(d)
  }

  /** `store_imdb`. The loaders are a parameter: `load` gives their output for
      a data directory and the `n_words` argument, passed on as given. */
  function StoreImdb<W>(dataPath: string, name: string, nWords: W, upsert: bool,
                        load: (string, W) -> ImdbCorpus): (r: Run)
    ensures WritesUse(r.actions, StrategyFor(upsert))
    ensures NoMarker(r.actions)
    ensures r.failure.None? <==> |load(dataPath, nWords).dataLabel| >= 3
    ensures r.failure.Some? ==> r.failure == Some(IndexError) && |r.actions| == 2
    ensures r.failure.None? ==>
              |r.actions| == 3 &&
              r.actions[2] == StoreByDefault(name, ImdbDict(load(dataPath, nWords).dataLabel).value)
    ensures |r.actions| >= 2
    ensures r.actions[0] == Write(StrategyFor(upsert), "word_to_id", ByName(name), WordToIdDoc(name, load(dataPath, nWords).wordToId))
    ensures r.actions[1] == Write(StrategyFor(upsert), "id_to_word", ByName(name), IdToWordDoc(name, load(dataPath, nWords).idToWord))
  {
    var corpus := load(dataPath, nWords);
    var s := StrategyFor(upsert);
    var head := [Write(s, "word_to_id", ByName(name), WordToIdDoc(name, corpus.wordToId)),
                 Write(s, "id_to_word", ByName(name), IdToWordDoc(name, corpus.idToWord))];
    match ImdbDict(corpus.dataLabel)
    case Err(f) => Run(head, Some(f))
    case Ok(d) => Run(head + [StoreByDefault(name, d)], None)
  }
}

=== FILE: labels.dfy ===
/** The SST sentiment-label discretizer: a score is mapped to one of five
    ordinal classes by comparing it against four inclusive upper bounds. */
module Labels {

  /** The inclusive class boundaries, in increasing order. */
  const Thresholds: seq<real> := [0.2, 0.4, 0.6, 0.8]

  /** The class of one score: 0 up to and including 0.2, 1 up to 0.4, 2 up to
      0.6, 3 up to 0.8, and 4 above. The classes are 0..4 (not 1..5). */
  function Bucket(score: real): (c: nat)
    ensures c <= 4
  {
    if score <= 0.2 then 0
    else if score <= 0.4 then 1
    else if score <= 0.6 then 2
    else if score <= 0.8 then 3
    else 4
  }

  /** The classes of a list of scores, position by position. */
  function Discretize(scores: seq<real>): (cs: seq<int>)
    ensures |cs| == |scores|
    ensures forall i :: 0 <= i < |cs| ==> 0 <= cs[i] <= 4 && cs[i] == Bucket(scores[i])
  {
    seq(|scores|, i requires 0 <= i < |scores| => Bucket(scores[i]))
  }

  /** Reference definition: how many of the boundaries `ts` lie strictly below `score`. */
  function CountBelow(ts: seq<real>, score: real): nat {
    if |ts| == 0 then 0
    else (if ts[0] < score then 1 else 0) + CountBelow(ts[1..], score)
  }

  /** The class of a score is the number of boundaries it exceeds. */
  lemma {:induction false} BucketCountsBoundariesBelow(score: real)
    ensures Bucket(score) == CountBelow(Thresholds, score)
  {
    assert CountBelow([0.8], score) == if 0.8 < score then 1 else 0 by {
      assert [0.8][1..] == [];
    }
    assert CountBelow([0.6, 0.8], score) == (if 0.6 < score then 1 else 0) + CountBelow([0.8], score) by {
      assert [0.6, 0.8][1..] == [0.8];
    }
    assert CountBelow([0.4, 0.6, 0.8], score) == (if 0.4 < score then 1 else 0) + CountBelow([0.6, 0.8], score) by {
      assert [0.4, 0.6, 0.8][1..] == [0.6, 0.8];
    }
    assert CountBelow(Thresholds, score) == (if 0.2 < score then 1 else 0) + CountBelow([0.4, 0.6, 0.8], score) by {
      assert Thresholds[1..] == [0.4, 0.6, 0.8];
    }
  }

  /** Class `k` holds exactly the scores in the half-open interval
      (Thresholds[k-1], Thresholds[k]], unbounded below for class 0 and
      above for class 4. */
  lemma BucketInterval(score: real, k: nat)
    requires k <= 4
    ensures Bucket(score) == k <==>
              (k == 0 || Thresholds[k - 1] < score) && (k == 4 || score <= Thresholds[k])
  {
  }

  /** A larger score never gets a smaller class. */
  lemma BucketMonotone(a: real, b: real)
    requires a <= b
    ensures Bucket(a) <= Bucket(b)
  {
  }

  /** The boundaries themselves belong to the lower class; scores outside [0, 1]
      fall into the end classes. */
  lemma BucketExamples()
    ensures Bucket(0.0) == 0 && Bucket(0.2) == 0 && Bucket(0.2000001) == 1
    ensures Bucket(0.4) == 1 && Bucket(0.6) == 2 && Bucket(0.8) == 3
    ensures Bucket(0.8000001) == 4 && Bucket(1.0) == 4
    ensures Bucket(-1.0) == 0 && Bucket(2.5) == 4
  {
  }
}

=== FILE: outcomes.dfy ===
/** Failure-carrying values for the seeding pipelines.

    The seeding module catches none of the exceptions its steps can raise, so
    every failure aborts the run; `Failure` names the Python exception that
    would propagate.
 */
module Outcomes {

  datatype Option<+T> = None | Some(value: T)

  /** The exceptions the modelled code raises itself (not those of I/O or of
      collaborators that are not modelled). */
  datatype Failure =
    | TypeError       // a keyword argument the pipeline does not accept, or a missing required one
    | AttributeError  // `split_scheme` is not a mapping, so it has no `.values()`
    | IndexError      // fewer than three native splits (SST) or data/label pairs (IMDB)
    | ValueError      // `a, b = zip(*xs)` with `xs` empty: not enough values to unpack

  datatype Result<+T> = Ok(value: T) | Err(failure: Failure)
}

=== FILE: seeder.dfy ===
/** The seeder (`seed_db`): a fold over the configured dataset entries that
    dispatches each on its type and records a completion marker after each
    dataset it stored. */
module Seeder {
  import opened Outcomes
  import opened Store
  import opened SstPipeline
  import opened ImdbPipeline

  /** A value of the entry's `scheme` mapping, which is passed to the pipeline
      as keyword arguments. */
  datatype Kwarg =
    | SchemeArg(pairs: SplitScheme)  // a nested mapping, e.g. `split_scheme`
    | IntArg(n: int)
    | BoolArg(b: bool)

  type Kwargs = map<string, Kwarg>

  /** One entry of the `datasets` list of the configuration. */
  datatype Entry = Entry(kind: string, name: string, dir: string, scheme: Kwargs)

  /** The collaborators the pipelines call: the SST corpus processor, the
      splitter (with its shuffle) and the IMDB loaders. Directory resolution
      against the cache root is part of `sst` and `imdb`. */
  datatype Env = Env(
    sst: string -> SstCorpus,
    split: (seq<Triple>, seq<real>) -> seq<seq<Triple>>,
    imdb: (string, Kwarg) -> ImdbCorpus
  )

  /** Python truth value of a keyword argument. */
  function Truthy(k: Kwarg): bool {
    match k
    case SchemeArg(pairs) => |pairs| > 0
    case IntArg(n) => n != 0
    case BoolArg(b) => b
  }

  /** Binding `**scheme` to `store_sst(data_path, name, split_scheme, upsert=False)`:
      any other keyword, or a missing `split_scheme`, is a TypeError; a
      `split_scheme` that is not a mapping fails on `.values()`. */
  function BindSst(kw: Kwargs): (r: Result<(SplitScheme, bool)>)
    ensures r.Err? <==> !(kw.Keys <= {"split_scheme", "upsert"}) || "split_scheme" !in kw || !kw["split_scheme"].SchemeArg?
    ensures r.Err? ==>
              (r.failure == AttributeError <==> kw.Keys <= {"split_scheme", "upsert"} && "split_scheme" in kw) &&
              (r.failure == AttributeError || r.failure == TypeError)
    ensures r.Ok? ==> r.value.0 == kw["split_scheme"].pairs
    ensures r.Ok? ==> (r.value.1 <==> "upsert" in kw && Truthy(kw["upsert"]))
  {
    if !(kw.Keys <= {"split_scheme", "upsert"}) then Err(TypeError)
    else if "split_scheme" !in kw then Err(TypeError)
    else if !kw["split_scheme"].SchemeArg? then Err(AttributeError)
    else Ok((kw["split_scheme"].pairs, "upsert" in kw && Truthy(kw["upsert"])))
  }

  /** Binding `**scheme` to `store_imdb(data_path, name, n_words=100000, upsert=False)`. */
  function BindImdb(kw: Kwargs): (r: Result<(Kwarg, bool)>)
    ensures r.Err? <==> !(kw.Keys <= {"n_words", "upsert"})
    ensures r.Err? ==> r.failure == TypeError
    ensures r.Ok? ==> r.value.0 == (if "n_words" in kw then kw["n_words"] else IntArg(100000))
    ensures r.Ok? ==> (r.value.1 <==> "upsert" in kw && Truthy(kw["upsert"]))
  {
    if !(kw.Keys <= {"n_words", "upsert"}) then Err(TypeError)
    else Ok((if "n_words" in kw then kw["n_words"] else IntArg(100000),
             "upsert" in kw && Truthy(kw["upsert"])))
  }

  /** A pipeline that finished is followed by the completion marker. */
  function Finish(name: string, p: Run): Run {
    if p.failure.Some? then p else Run(p.actions + [Inserted(name, "sp")], None)
  }

  predicate KnownKind(kind: string) {
    kind == "sst" || kind == "imdb"
  }

  /** One iteration of the seeding loop: `upsert` is set to `force`, the entry
      is dispatched on its type, and a stored dataset gets one marker; an
      unknown type is only skipped. */
  function SeedEntry(e: Entry, force: bool, env: Env): (r: Run)
    ensures !KnownKind(e.kind) ==> r == Run([Skipped(e.kind)], None)
    ensures KnownKind(e.kind) && r.failure.None? ==>
              |r.actions| > 0 && r.actions[|r.actions| - 1] == Inserted(e.name, "sp") &&
              Markers(r.actions) == [e.name]
    ensures r.failure.Some? ==> Markers(r.actions) == []
    ensures WritesUse(r.actions, StrategyFor(force))
  {
    var kw := e.scheme["upsert" := BoolArg(force)];
    if e.kind == "sst" then
      match BindSst(kw)
      case Err(f) => Run([], Some(f))
      case Ok(args) =>
        var p := StoreSst(e.dir, e.name, args.0, args.1, env.sst, env.split);
        FinishProps(e.name, p, StrategyFor(force));
        Finish(e.name, p)
    else if e.kind == "imdb" then
      match BindImdb(kw)
      case Err(f) => Run([], Some(f))
      case Ok(args) =>
        var p := StoreImdb(e.dir, e.name, args.0, args.1, env.imdb);
        FinishProps(e.name, p, StrategyFor(force));
        Finish(e.name, p)
    else Run([Skipped(e.kind)], None)
  }

  lemma FinishProps(name: string, p: Run, s: Strategy)
    requires WritesUse(p.actions, s) && NoMarker(p.actions)
    ensures WritesUse(Finish(name, p).actions, s)
    ensures Finish(name, p).failure.Some? ==> Markers(Finish(name, p).actions) == []
    ensures Finish(name, p).failure.None? ==> Markers(Finish(name, p).actions) == [name]
    ensures Finish(name, p).failure == p.failure
    ensures var acts := Finish(name, p).actions;
            Finish(name, p).failure.None? ==> |acts| > 0 && acts[|acts| - 1] == Inserted(name, "sp")
  {
    NoMarkerMeansNoMarkers(p.actions);
    MarkersAppend(p.actions, [Inserted(name, "sp")]);
    WritesUseAppend(p.actions, [Inserted(name, "sp")], s);
  }

  /** The loop of `seed_db` over the entries' runs: each run's actions in
      order, stopping after the first run that raised. */
  function Fold(runs: seq<Run>): Run {
    if |runs| == 0 then Run([], None)
    else if runs[0].failure.Some? then runs[0]
    else
      var rest := Fold(runs[1..]);
      Run(runs[0].actions + rest.actions, rest.failure)
  }

  /** The runs' traces, one after the other. */
  function Concat(runs: seq<Run>): seq<Action> {
    if |runs| == 0 then [] else runs[0].actions + Concat(runs[1..])
  }

  /** The completion markers of the runs, in order. */
  function MarkerNames(runs: seq<Run>): seq<string> {
    if |runs| == 0 then [] else Markers(runs[0].actions) + MarkerNames(runs[1..])
  }

  /** How many leading runs finish without raising. */
  function Completed(runs: seq<Run>): (n: nat)
    ensures n <= |runs|
    ensures forall j :: 0 <= j < n ==> runs[j].failure.None?
    ensures n < |runs| ==> runs[n].failure.Some?
  {
    if |runs| == 0 || runs[0].failure.Some? then 0
    else 1 + Completed(runs[1..])
  }

  /** The fold finishes exactly when no run raises, and its trace is then all
      the runs' traces in order. */
  lemma {:induction false} FoldCompletes(runs: seq<Run>)
    ensures Fold(runs).failure.None? <==> forall i :: 0 <= i < |runs| ==> runs[i].failure.None?
    ensures Fold(runs).failure.None? ==> Fold(runs).actions == Concat(runs)
  {
    if |runs| > 0 {
      FoldCompletes(runs[1..]);
      assert forall i :: 1 <= i < |runs| ==> runs[i] == runs[1..][i - 1];
    }
  }

  /** When a run raises, the fold stops there: the earlier runs' traces, then
      the failing run's own trace, and nothing of the runs after it. */
  lemma {:induction false} FoldAborts(runs: seq<Run>)
    requires Fold(runs).failure.Some?
    ensures var i := Completed(runs);
            i < |runs| && Fold(runs).failure == runs[i].failure &&
            Fold(runs).actions == Concat(runs[..i]) + runs[i].actions
  {
    if runs[0].failure.Some? {
      assert Concat(runs[..0]) == [];
    } else {
      var tail := runs[1..];
      FoldAborts(tail);
      var i := Completed(tail);
      assert runs[..i + 1][1..] == tail[..i];
      assert Concat(runs[..i + 1]) == runs[0].actions + Concat(tail[..i]);
    }
  }

  /** The markers of a finished fold are those of its runs, in order. */
  lemma {:induction false} FoldMarkers(runs: seq<Run>)
    requires Fold(runs).failure.None?
    ensures Markers(Fold(runs).actions) == MarkerNames(runs)
  {
    if |runs| > 0 {
      FoldMarkers(runs[1..]);
      MarkersAppend(runs[0].actions, Fold(runs[1..]).actions);
    }
  }

  lemma {:induction false} FoldWrites(runs: seq<Run>, s: Strategy)
    requires forall i :: 0 <= i < |runs| ==> WritesUse(runs[i].actions, s)
    ensures WritesUse(Fold(runs).actions, s)
  {
    if |runs| > 0 && runs[0].failure.None? {
      assert forall i :: 1 <= i < |runs| ==> runs[i] == runs[1..][i - 1];
      FoldWrites(runs[1..], s);
      WritesUseAppend(runs[0].actions, Fold(runs[1..]).actions, s);
    }
  }

  /** The run of every entry, in configuration order. */
  function EntryRuns(config: seq<Entry>, force: bool, env: Env): (runs: seq<Run>)
    ensures |runs| == |config|
    ensures forall i :: 0 <= i < |config| ==> runs[i] == SeedEntry(config[i], force, env)
  {
    seq(|config|, i requires 0 <= i < |config| => SeedEntry(config[i], force, env))
  }

  /** `seed_db(force)`: the entries in configuration order; the first
      exception ends the run. */
  function SeedDb(config: seq<Entry>, force: bool, env: Env): (r: Run)
    ensures WritesUse(r.actions, StrategyFor(force))
  {
    var runs := EntryRuns(config, force, env);
    FoldWrites(runs, StrategyFor(force));
    Fold(runs)
  }

  /** The names of the entries of known type, in configuration order. */
  function KnownNames(config: seq<Entry>): seq<string> {
    if |config| == 0 then []
    else (if KnownKind(config[0].kind) then [config[0].name] else []) + KnownNames(config[1..])
  }

  /** A seeding run finishes exactly when no entry raises, and its trace is
      then the entries' traces in configuration order. */
  lemma SeedDbCompletes(config: seq<Entry>, force: bool, env: Env)
    ensures SeedDb(config, force, env).failure.None? <==>
              forall i :: 0 <= i < |config| ==> SeedEntry(config[i], force, env).failure.None?
    ensures SeedDb(config, force, env).failure.None? ==>
              SeedDb(config, force, env).actions == Concat(EntryRuns(config, force, env))
  {
    FoldCompletes(EntryRuns(config, force, env));
  }

  /** When an entry raises, the run stops there: the traces of the entries
      before it, then what the failing entry did, and nothing after. */
  lemma SeedDbAborts(config: seq<Entry>, force: bool, env: Env)
    requires SeedDb(config, force, env).failure.Some?
    ensures var runs := EntryRuns(config, force, env);
            var i := Completed(runs);
            i < |config| &&
            (forall j :: 0 <= j < i ==> SeedEntry(config[j], force, env).failure.None?) &&
            SeedEntry(config[i], force, env).failure == SeedDb(config, force, env).failure &&
            SeedDb(config, force, env).actions == Concat(runs[..i]) + SeedEntry(config[i], force, env).actions
  {
    FoldAborts(EntryRuns(config, force, env));
  }

  lemma {:induction false} MarkerNamesOfEntries(config: seq<Entry>, force: bool, env: Env)
    requires forall i :: 0 <= i < |config| ==> SeedEntry(config[i], force, env).failure.None?
    ensures MarkerNames(EntryRuns(config, force, env)) == KnownNames(config)
  {
    if |config| > 0 {
      var runs := EntryRuns(config, force, env);
      assert runs[1..] == EntryRuns(config[1..], force, env);
      MarkerNamesOfEntries(config[1..], force, env);
      var first := runs[0];
      if !KnownKind(config[0].kind) {
        assert first.actions == [Skipped(config[0].kind)];
        assert first.actions[1..] == [];
        assert Markers(first.actions) == [];
      }
    }
  }

  /** A finished run carries exactly one completion marker per entry of type
      sst or imdb, in configuration order, and none for the others. */
  lemma SeedDbMarkers(config: seq<Entry>, force: bool, env: Env)
    requires SeedDb(config, force, env).failure.None?
    ensures Markers(SeedDb(config, force, env).actions) == KnownNames(config)
  {
    var runs := EntryRuns(config, force, env);
    FoldCompletes(runs);
    FoldMarkers(runs);
    MarkerNamesOfEntries(config, force, env);
  }

  /** An sst entry runs the SST pipeline on its own directory, name and
      `split_scheme`, with `upsert` set to `force`: the entry's trace starts with
      the pipeline's trace and raises what it raises; a finished pipeline is
      followed by the marker alone. A keyword the pipeline cannot bind raises
      before anything is written. */
  lemma SstDispatched(e: Entry, force: bool, env: Env)
    requires e.kind == "sst"
    ensures var b := BindSst(e.scheme["upsert" := BoolArg(force)]);
            b.Err? ==> SeedEntry(e, force, env) == Run([], Some(b.failure))
    ensures var b := BindSst(e.scheme["upsert" := BoolArg(force)]);
            b.Ok? ==>
              var p := StoreSst(e.dir, e.name, b.value.0, force, env.sst, env.split);
              var r := SeedEntry(e, force, env);
              r.failure == p.failure &&
              (p.failure.Some? ==> r.actions == p.actions) &&
              (p.failure.None? ==> r.actions == p.actions + [Inserted(e.name, "sp")])
  {
  }

  /** An imdb entry runs the IMDB pipeline on its own directory, name and
      `n_words` (100000 when absent), with `upsert` set to `force`. */
  lemma ImdbDispatched(e: Entry, force: bool, env: Env)
    requires e.kind == "imdb"
    ensures var b := BindImdb(e.scheme["upsert" := BoolArg(force)]);
            b.Err? ==> SeedEntry(e, force, env) == Run([], Some(TypeError))
    ensures var b := BindImdb(e.scheme["upsert" := BoolArg(force)]);
            b.Ok? ==>
              var p := StoreImdb(e.dir, e.name, b.value.0, force, env.imdb);
              var r := SeedEntry(e, force, env);
              r.failure == p.failure &&
              (p.failure.Some? ==> r.actions == p.actions) &&
              (p.failure.None? ==> r.actions == p.actions + [Inserted(e.name, "sp")])
  {
  }

  /** Whatever the configured scheme says about `upsert`, the strategy of
      every write is the one `force` selects. */
  lemma UpsertOverridden(e: Entry, force: bool)
    ensures BindSst(e.scheme["upsert" := BoolArg(force)]).Ok? ==>
              BindSst(e.scheme["upsert" := BoolArg(force)]).value.1 == force
    ensures BindImdb(e.scheme["upsert" := BoolArg(force)]).Ok? ==>
              BindImdb(e.scheme["upsert" := BoolArg(force)]).value.1 == force
  {
  }
}

=== FILE: sst.dfy ===
/** The SST pipeline (`store_sst`): word maps, the corpus's own sentence
    split, and the configured-scheme split with discretized labels. */
module SstPipeline {
  import opened Outcomes
  import opened Builtins
  import opened Labels
  import opened Store

  /** One example: its word ids, its sentiment score and its 1-based corpus index. */
  type Triple = (Sentence, real, int)

  /** The split scheme: split names with their proportions, in dict order. */
  type SplitScheme = seq<(string, real)>

  /** What the corpus processor yields for one data directory. */
  datatype SstCorpus = SstCorpus(
    ids: seq<Sentence>,                      // word ids of every sentence
    labels: seq<real>,                       // sentiment score of every sentence
    wordToId: map<string, int>,
    idToWord: seq<string>,
    nativeSplit: seq<seq<(Sentence, int)>>   // the corpus's own split: (sentence, index) pairs per set
  )

  /** The (word ids, score, index) triples handed to the splitter; `range`
      has as many elements as there are labels. */
  function Triples(ids: seq<Sentence>, labels: seq<real>): (t: seq<Triple>)
    ensures |t| == Min(|ids|, |labels|)
    ensures forall i :: 0 <= i < |t| ==> t[i] == (ids[i], labels[i], i + 1)
  {
    Zip3(ids, labels, Range(1, |labels| + 1))
  }

  /** `dict(zip(split_scheme.keys(), chunks))`: the k-th scheme key names the
      k-th chunk, for as many keys and chunks as both lists have. */
  function SplitDict(scheme: SplitScheme, chunks: seq<seq<Triple>>): (d: map<string, seq<Triple>>)
    ensures d.Keys == set k | 0 <= k < Min(|scheme|, |chunks|) :: scheme[k].0
    ensures forall k :: 0 <= k < Min(|scheme|, |chunks|) && LastKey(scheme, chunks, k) ==>
              d[scheme[k].0] == chunks[k]
  {
    var pairs := Zip(Keys(scheme), chunks);
    assert forall k :: 0 <= k < |pairs| ==> pairs[k] == (scheme[k].0, chunks[k]);
    PairedKeys(scheme, chunks, pairs);
    DictOf(pairs)
  }

  /** When pair k is scheme key k with chunk k, the pairs' keys are the paired
      scheme keys, and a key last among them is a last occurrence. */
  lemma PairedKeys(scheme: SplitScheme, chunks: seq<seq<Triple>>, pairs: seq<(string, seq<Triple>)>)
    requires |pairs| == Min(|scheme|, |chunks|)
    requires forall k :: 0 <= k < |pairs| ==> pairs[k] == (scheme[k].0, chunks[k])
    ensures (set i | 0 <= i < |pairs| :: pairs[i].0) == set k | 0 <= k < Min(|scheme|, |chunks|) :: scheme[k].0
    ensures forall k :: 0 <= k < |pairs| && LastKey(scheme, chunks, k) ==> LastOccurrence(pairs, k)
  {
    var paired := set i | 0 <= i < |pairs| :: pairs[i].0;
    var keys := set k | 0 <= k < Min(|scheme|, |chunks|) :: scheme[k].0;
    forall x | x in paired ensures x in keys {
      var i :| 0 <= i < |pairs| && pairs[i].0 == x;
      assert scheme[i].0 == x;
    }
    forall x | x in keys ensures x in paired {
      var k :| 0 <= k < Min(|scheme|, |chunks|) && scheme[k].0 == x;
      assert pairs[k].0 == x;
    }
    forall k | 0 <= k < |pairs| && LastKey(scheme, chunks, k) ensures LastOccurrence(pairs, k) {
      forall j | k < j < |pairs| ensures pairs[j].0 != pairs[k].0 {
        assert scheme[j].0 != scheme[k].0;
      }
    }
  }

  /** No later paired key repeats the k-th one (always so for a dict's keys). */
  predicate LastKey(scheme: SplitScheme, chunks: seq<seq<Triple>>, k: int)
    requires 0 <= k < Min(|scheme|, |chunks|)
  {
    forall j :: k < j < Min(|scheme|, |chunks|) ==> scheme[j].0 != scheme[k].0
  }

  /** The native split is stored as one document per set name: its sentences
      and their corpus indices, split into two columns. */
  predicate IsSentenceWrite(a: Action, name: string, s: Strategy, setName: string, pairs: seq<(Sentence, int)>) {
    && a.Write?
    && a.strategy == s
    && a.collection == "sentences"
    && a.key == ByNameSet(name, setName)
    && a.doc.SentencesDoc?
    && a.doc.name == name
    && a.doc.setName == setName
    && |a.doc.data| == |pairs|
    && |a.doc.ids| == |pairs|
    && forall j :: 0 <= j < |pairs| ==> (a.doc.data[j], a.doc.ids[j]) == pairs[j]
  }

  /** The native split has all three sets, none of them empty. */
  predicate NativeComplete(native: seq<seq<(Sentence, int)>>) {
    |native| >= 3 && forall j :: 0 <= j < 3 ==> |native[j]| > 0
  }

  /** The loop writing the native split, from set `k` on. It stops at the first
      set that is missing (IndexError) or empty (ValueError). */
  function NativeSentences(name: string, s: Strategy, native: seq<seq<(Sentence, int)>>, k: nat): (r: Run)
    requires k <= 3
    ensures r.failure.None? <==> forall j :: k <= j < 3 ==> j < |native| && |native[j]| > 0
    ensures r.failure.None? ==> |r.actions| == 3 - k
    ensures r.failure.Some? ==>
              var f := k + |r.actions|;
              f < 3 && (f >= |native| || |native[f]| == 0)
    ensures r.failure.Some? && k + |r.actions| >= |native| ==> r.failure == Some(IndexError)
    ensures r.failure.Some? && k + |r.actions| < |native| ==> r.failure == Some(ValueError)
    ensures WritesUse(r.actions, s) && NoMarker(r.actions)
    ensures forall a :: 0 <= a < |r.actions| ==>
              k + a < 3 && k + a < |native| && |native[k + a]| > 0 &&
              IsSentenceWrite(r.actions[a], name, s, SetNames[k + a], native[k + a])
    decreases 3 - k
  {
    if k == 3 then Run([], None)
    else if k >= |native| then
      assert !(k < |native|);
      Run([], Some(IndexError))
    else
      match Unzip(native[k])
      case Err(f) => Run([], Some(f))
      case Ok(cols) =>
        var w := Write(s, "sentences", ByNameSet(name, SetNames[k]), SentencesDoc(name, SetNames[k], cols.0, cols.1));
        var rest := NativeSentences(name, s, native, k + 1);
        Run([w] + rest.actions, rest.failure)
  }

  /** A split of the data dict holds the columns of its scheme chunk:
      word ids, discretized scores and corpus indices, position by position. */
  predicate SplitOfChunk(sp: Split, chunk: seq<Triple>) {
    && |sp.data| == |chunk|
    && |sp.labels| == |chunk|
    && |sp.ids| == |chunk|
    && forall j :: 0 <= j < |chunk| ==>
         sp.data[j] == chunk[j].0 && sp.labels[j] == Bucket(chunk[j].1) && sp.ids[j] == chunk[j].2
  }

  /** The names of `names` that are keys of `m`, in order. */
  function Present<V>(names: seq<string>, m: map<string, V>): (ps: seq<string>)
    ensures forall x :: x in ps <==> x in names && x in m
  {
    if |names| == 0 then []
    else if names[0] in m then [names[0]] + Present(names[1..], m)
    else Present(names[1..], m)
  }

  /** `data, label, ids = zip(*chunk)` with the labels discretized; ValueError
      for an empty chunk. */
  function ChunkSplit(chunk: seq<Triple>): (r: Result<Split>)
    ensures r.Ok? <==> |chunk| > 0
    ensures r.Err? ==> r.failure == ValueError
    ensures r.Ok? ==> SplitOfChunk(r.value, chunk)
  {
    match Unzip3(chunk)
    case Err(f) => Err(f)
    case Ok(cols) =>
      assert forall j :: 0 <= j < |chunk| ==> chunk[j] == (cols.0[j], cols.1[j], cols.2[j]);
      Ok(Split(cols.0, Discretize(cols.1), cols.2))
  }

  /** The data dict built from the scheme split: one entry per name of `names`
      that the split has, in that order; unpacking an empty chunk raises ValueError. */
  function SstDict(names: seq<string>, splitData: map<string, seq<Triple>>): (r: Result<DataDict>)
    ensures r.Ok? <==> forall k :: 0 <= k < |names| && names[k] in splitData ==> |splitData[names[k]]| > 0
    ensures r.Err? ==> r.failure == ValueError
    ensures r.Ok? ==> Keys(r.value) == Present(names, splitData)
  {
    if |names| == 0 then Ok([])
    else
      var rest := SstDict(names[1..], splitData);
      assert forall k :: 1 <= k < |names| ==> names[k] == names[1..][k - 1];
      if names[0] !in splitData then rest
      else
        match ChunkSplit(splitData[names[0]])
        case Err(f) => Err(f)
        case Ok(sp) =>
          if rest.Err? then rest
          else
            var d := [(names[0], sp)] + rest.value;
            assert Keys(d) == [names[0]] + Keys(rest.value);
            assert forall j :: 1 <= j < |d| ==> d[j] == rest.value[j - 1];
            Ok(d)
  }

  /** Every split of the data dict holds the columns of its own chunk, with
      the scores discretized. */
  lemma {:induction false} SstDictColumns(names: seq<string>, splitData: map<string, seq<Triple>>)
    requires SstDict(names, splitData).Ok?
    ensures var d := SstDict(names, splitData).value;
            forall j :: 0 <= j < |d| ==> d[j].0 in splitData && SplitOfChunk(d[j].1, splitData[d[j].0])
  {
    if |names| > 0 {
      SstDictColumns(names[1..], splitData);
    }
  }

  /** The splitter's chunks for a corpus under a scheme. */
  function Chunks(corpus: SstCorpus, scheme: SplitScheme,
                  split: (seq<Triple>, seq<real>) -> seq<seq<Triple>>): seq<seq<Triple>>
  {
    split(Triples(corpus.ids, corpus.labels), Values(scheme))
  }

  /** What `store_sst` does after writing the two word maps: the native
      sentence documents, the missing-train warning and the scheme split dict. */
  function SstSplits(name: string, s: Strategy, native: seq<seq<(Sentence, int)>>,
                     splitData: map<string, seq<Triple>>): (r: Run)
    ensures WritesUse(r.actions, s) && NoMarker(r.actions)
  {
    var sentences := NativeSentences(name, s, native, 0);
    if sentences.failure.Some? then sentences
    else
      var warned := if "train" in splitData then [] else [WarnNoTrain];
      WritesUseAppend(sentences.actions, warned, s);
      NoMarkerAppend(sentences.actions, warned);
      match SstDict(SetNames, splitData)
      case Err(f) => Run(sentences.actions + warned, Some(f))
      case Ok(d) =>
        WritesUseAppend(sentences.actions + warned, [StoreByDefault(name, d)], s);
        NoMarkerAppend(sentences.actions + warned, [StoreByDefault(name, d)]);
        Run(sentences.actions + warned + [StoreByDefault(name, d)], None)
  }

  /** `store_sst`. The corpus processor and the splitter (with its shuffle) are
      parameters: `load` gives the processor's output for a data directory,
      `split` the chunks for the triples and the scheme's proportions. */
  function StoreSst(dataPath: string, name: string, scheme: SplitScheme, upsert: bool,
                    load: string -> SstCorpus,
                    split: (seq<Triple>, seq<real>) -> seq<seq<Triple>>): (r: Run)
    ensures WritesUse(r.actions, StrategyFor(upsert))
    ensures NoMarker(r.actions)
    ensures |r.actions| >= 2
    ensures r.actions[0] == Write(StrategyFor(upsert), "word_to_id", ByName(name), WordToIdDoc(name, load(dataPath).wordToId))
    ensures r.actions[1] == Write(StrategyFor(upsert), "id_to_word", ByName(name), IdToWordDoc(name, load(dataPath).idToWord))
  {
    var corpus := load(dataPath);
    var s := StrategyFor(upsert);
    var head := [Write(s, "word_to_id", ByName(name), WordToIdDoc(name, corpus.wordToId)),
                 Write(s, "id_to_word", ByName(name), IdToWordDoc(name, corpus.idToWord))];
    var sd := SplitDict(scheme, Chunks(corpus, scheme, split));
    var rest := SstSplits(name, s, corpus.nativeSplit, sd);
    WritesUseAppend(head, rest.actions, s);
    NoMarkerAppend(head, rest.actions);
    Run(head + rest.actions, rest.failure)
  }

  /** After the two word maps, `store_sst`'s trace and exception are those of
      the split stage. */
  lemma StoreSstSplitsAfterMaps(dataPath: string, name: string, scheme: SplitScheme, upsert: bool,
                                load: string -> SstCorpus,
                                split: (seq<Triple>, seq<real>) -> seq<seq<Triple>>)
    ensures var r := StoreSst(dataPath, name, scheme, upsert, load, split);
            var rest := SstSplits(name, StrategyFor(upsert), load(dataPath).nativeSplit,
                                  SplitDict(scheme, Chunks(load(dataPath), scheme, split)));
            r.actions == r.actions[..2] + rest.actions && r.failure == rest.failure
  {
  }

  /** Positions in a trace that continues another after two leading actions. */
  lemma AfterWordMaps(r: Run, rest: Run)
    requires |r.actions| >= 2 && r.actions == r.actions[..2] + rest.actions && r.failure == rest.failure
    ensures |r.actions| == |rest.actions| + 2 && r.actions[2..] == rest.actions
    ensures |rest.actions| >= 3 ==> r.actions[2..5] == rest.actions[..3]
    ensures forall i :: 0 <= i < |rest.actions| ==> r.actions[i + 2] == rest.actions[i]
  {
    assert |r.actions[..2]| == 2;
    assert r.actions[2..] == rest.actions;
  }

  /** Only train, valid and test reach the data dict, each exactly when the
      scheme split has it; any other scheme key is dropped. */
  lemma SstDictKeys(splitData: map<string, seq<Triple>>)
    requires SstDict(SetNames, splitData).Ok?
    ensures var ns := Keys(SstDict(SetNames, splitData).value);
            forall x :: x in ns <==> x in splitData && (x == "train" || x == "valid" || x == "test")
  {
  }

  /** The warning is issued exactly when the native split was stored and the
      scheme split has no train chunk. */
  lemma SstWarnsWithoutTrain(name: string, s: Strategy, native: seq<seq<(Sentence, int)>>,
                             splitData: map<string, seq<Triple>>)
    ensures (WarnNoTrain in SstSplits(name, s, native, splitData).actions) <==>
              NativeComplete(native) && "train" !in splitData
  {
  }

  /** The pipeline finishes exactly when every native set exists and is
      non-empty and every present scheme chunk is non-empty; it then ends by
      storing the data dict. */
  lemma SstSplitsOutcome(name: string, s: Strategy, native: seq<seq<(Sentence, int)>>,
                         splitData: map<string, seq<Triple>>)
    ensures var r := SstSplits(name, s, native, splitData);
            r.failure.None? <==> NativeComplete(native) && SstDict(SetNames, splitData).Ok?
    ensures var r := SstSplits(name, s, native, splitData);
            r.failure.None? ==>
              |r.actions| >= 4 &&
              r.actions[|r.actions| - 1] == StoreByDefault(name, SstDict(SetNames, splitData).value) &&
              forall a :: 0 <= a < 3 ==> IsSentenceWrite(r.actions[a], name, s, SetNames[a], native[a])
  {
  }

  /** Each stored index i of `sp` lies in 1..n and points at the stored
      sentence, and the stored label is the class of score i. */
  predicate TracesBack(sp: Split, ids: seq<Sentence>, labels: seq<real>) {
    && |sp.data| == |sp.ids|
    && |sp.labels| == |sp.ids|
    && forall k :: 0 <= k < |sp.ids| ==>
         1 <= sp.ids[k] <= Min(|ids|, |labels|) &&
         sp.data[k] == ids[sp.ids[k] - 1] && sp.labels[k] == Bucket(labels[sp.ids[k] - 1])
  }

  /** When every chunk holds triples built from the corpus, every stored index
      leads back to the corpus sentence and score it came from. */
  lemma SstDictTraceable(ids: seq<Sentence>, labels: seq<real>, splitData: map<string, seq<Triple>>)
    requires forall n, t :: n in splitData && t in splitData[n] ==> t in Triples(ids, labels)
    requires SstDict(SetNames, splitData).Ok?
    ensures var d := SstDict(SetNames, splitData).value;
            forall j :: 0 <= j < |d| ==> TracesBack(d[j].1, ids, labels)
  {
    var d := SstDict(SetNames, splitData).value;
    var t := Triples(ids, labels);
    SstDictColumns(SetNames, splitData);
    forall j, k | 0 <= j < |d| && 0 <= k < |d[j].1.ids|
      ensures var i := d[j].1.ids[k];
              1 <= i <= Min(|ids|, |labels|) &&
              d[j].1.data[k] == ids[i - 1] && d[j].1.labels[k] == Bucket(labels[i - 1])
    {
      var chunk := splitData[d[j].0];
      assert SplitOfChunk(d[j].1, chunk);
      assert chunk[k] in chunk;
      assert chunk[k] in t;
      var p :| 0 <= p < |t| && t[p] == chunk[k];
      assert d[j].1.ids[k] == p + 1;
    }
  }

  /** Every set of the split dict is one of the splitter's chunks. */
  lemma SplitDictChunk(scheme: SplitScheme, chunks: seq<seq<Triple>>, n: string)
    ensures n in SplitDict(scheme, chunks) ==>
              exists k :: 0 <= k < |chunks| && SplitDict(scheme, chunks)[n] == chunks[k]
  {
    if n !in SplitDict(scheme, chunks) {
      return;
    }
    var pairs := Zip(Keys(scheme), chunks);
    var d := DictOf(pairs);
    assert SplitDict(scheme, chunks) == d;
    DictOfValueListed(pairs, n);
    var i :| 0 <= i < |pairs| && pairs[i] == (n, d[n]);
    assert d[n] == chunks[i] by {
      assert pairs[i].1 == chunks[i];
    }
  }

  /** What `store_sst` stores traces back to the corpus: when the splitter
      only returns chunks of the triples it was given (a shuffle does), every
      stored index of a finished run leads back to the corpus sentence and to
      the class of its score. */
  lemma StoreSstTraceable(dataPath: string, name: string, scheme: SplitScheme, upsert: bool,
                          load: string -> SstCorpus,
                          split: (seq<Triple>, seq<real>) -> seq<seq<Triple>>)
    requires forall ts, ps, c, t :: c in split(ts, ps) && t in c ==> t in ts
    requires StoreSst(dataPath, name, scheme, upsert, load, split).failure.None?
    ensures var r := StoreSst(dataPath, name, scheme, upsert, load, split);
            var last := r.actions[|r.actions| - 1];
            var corpus := load(dataPath);
            last.StoreByDefault? &&
            forall j :: 0 <= j < |last.dict| ==> TracesBack(last.dict[j].1, corpus.ids, corpus.labels)
  {
    var corpus := load(dataPath);
    var chunks := Chunks(corpus, scheme, split);
    var sd := SplitDict(scheme, chunks);
    StoreSstOutcome(dataPath, name, scheme, upsert, load, split);
    forall n, t | n in sd && t in sd[n]
      ensures t in Triples(corpus.ids, corpus.labels)
    {
      SplitDictChunk(scheme, chunks, n);
      var k :| 0 <= k < |chunks| && sd[n] == chunks[k];
      assert chunks[k] in split(Triples(corpus.ids, corpus.labels), Values(scheme));
    }
    SstDictTraceable(corpus.ids, corpus.labels, sd);
  }

  /** Whether a train chunk reaches the split dict depends only on the scheme
      keys that were paired with a chunk. */
  lemma TrainPairedIff(scheme: SplitScheme, chunks: seq<seq<Triple>>)
    ensures "train" in SplitDict(scheme, chunks) <==>
              exists k :: 0 <= k < Min(|scheme|, |chunks|) && scheme[k].0 == "train"
  {
  }

  /** The four-sentence scenario: scores 0.1, 0.3, 0.55 and 0.95 get classes
      0, 1, 2 and 4 in corpus order, and carry indices 1 to 4. */
  lemma FourSentenceScenario(ids: seq<Sentence>)
    requires |ids| == 4
    ensures Discretize([0.1, 0.3, 0.55, 0.95]) == [0, 1, 2, 4]
    ensures var t := Triples(ids, [0.1, 0.3, 0.55, 0.95]);
            |t| == 4 && t[0].2 == 1 && t[3].2 == 4
  {
  }

  /** After the word maps, `store_sst` writes the three native sentence
      documents, warns exactly when the scheme split lacks train, and ends by
      storing the data dict; it finishes exactly when the native split is
      complete and every present scheme chunk is non-empty. */
  lemma StoreSstOutcome(dataPath: string, name: string, scheme: SplitScheme, upsert: bool,
                        load: string -> SstCorpus,
                        split: (seq<Triple>, seq<real>) -> seq<seq<Triple>>)
    ensures var sd := SplitDict(scheme, Chunks(load(dataPath), scheme, split));
            var r := StoreSst(dataPath, name, scheme, upsert, load, split);
            r.failure.None? <==> NativeComplete(load(dataPath).nativeSplit) && SstDict(SetNames, sd).Ok?
    ensures var sd := SplitDict(scheme, Chunks(load(dataPath), scheme, split));
            var r := StoreSst(dataPath, name, scheme, upsert, load, split);
            r.failure.None? ==>
              |r.actions| >= 6 &&
              r.actions[|r.actions| - 1] == StoreByDefault(name, SstDict(SetNames, sd).value) &&
              forall a :: 0 <= a < 3 ==>
                IsSentenceWrite(r.actions[2 + a], name, StrategyFor(upsert), SetNames[a], load(dataPath).nativeSplit[a])
    ensures var sd := SplitDict(scheme, Chunks(load(dataPath), scheme, split));
            var r := StoreSst(dataPath, name, scheme, upsert, load, split);
            (WarnNoTrain in r.actions) <==> NativeComplete(load(dataPath).nativeSplit) && "train" !in sd
  {
    var native := load(dataPath).nativeSplit;
    var sd := SplitDict(scheme, Chunks(load(dataPath), scheme, split));
    var s := StrategyFor(upsert);
    var r := StoreSst(dataPath, name, scheme, upsert, load, split);
    var rest := SstSplits(name, s, native, sd);
    StoreSstSplitsAfterMaps(dataPath, name, scheme, upsert, load, split);
    SstSplitsOutcome(name, s, native, sd);
    SstWarnsWithoutTrain(name, s, native, sd);
    assert WarnNoTrain !in r.actions[..2];
    assert (WarnNoTrain in r.actions) <==> (WarnNoTrain in rest.actions);
  }

  /** The whole trace after the word maps: when the native loop stops, the
      trace is exactly that loop's (the sentence documents written before the
      failing set, and its exception); otherwise three sentence documents, the
      warning when train is absent, and the data-dict store when it succeeds.
      A failure after the native loop is the ValueError of an empty chunk. */
  lemma SstSplitsTrace(name: string, s: Strategy, native: seq<seq<(Sentence, int)>>,
                       splitData: map<string, seq<Triple>>)
    ensures !NativeComplete(native) ==>
              SstSplits(name, s, native, splitData) == NativeSentences(name, s, native, 0)
    ensures var r := SstSplits(name, s, native, splitData);
            NativeComplete(native) ==>
              |r.actions| == (if "train" in splitData then 3 else 4) + (if r.failure.None? then 1 else 0)
    ensures var r := SstSplits(name, s, native, splitData);
            NativeComplete(native) && r.failure.Some? ==> r.failure == Some(ValueError)
    ensures var r := SstSplits(name, s, native, splitData);
            NativeComplete(native) ==>
              r.actions[..3] == NativeSentences(name, s, native, 0).actions &&
              ("train" !in splitData ==> r.actions[3] == WarnNoTrain)
  {
  }

  /** `store_sst`'s whole trace: the two word maps, then exactly what the
      native loop wrote when it stopped, or else the three sentence documents,
      the optional warning and the data-dict store (five or six actions before
      the store, which comes last). */
  lemma StoreSstTrace(dataPath: string, name: string, scheme: SplitScheme, upsert: bool,
                      load: string -> SstCorpus,
                      split: (seq<Triple>, seq<real>) -> seq<seq<Triple>>)
    ensures var r := StoreSst(dataPath, name, scheme, upsert, load, split);
            var ns := NativeSentences(name, StrategyFor(upsert), load(dataPath).nativeSplit, 0);
            !NativeComplete(load(dataPath).nativeSplit) ==>
              r.actions[2..] == ns.actions && r.failure == ns.failure
    ensures var r := StoreSst(dataPath, name, scheme, upsert, load, split);
            var sd := SplitDict(scheme, Chunks(load(dataPath), scheme, split));
            NativeComplete(load(dataPath).nativeSplit) ==>
              |r.actions| == (if "train" in sd then 5 else 6) + (if r.failure.None? then 1 else 0) &&
              (r.failure.Some? ==> r.failure == Some(ValueError))
    ensures var r := StoreSst(dataPath, name, scheme, upsert, load, split);
            var ns := NativeSentences(name, StrategyFor(upsert), load(dataPath).nativeSplit, 0);
            var sd := SplitDict(scheme, Chunks(load(dataPath), scheme, split));
            NativeComplete(load(dataPath).nativeSplit) ==>
              r.actions[2..5] == ns.actions && ("train" !in sd ==> r.actions[5] == WarnNoTrain)
  {
    var corpus := load(dataPath);
    var sd := SplitDict(scheme, Chunks(corpus, scheme, split));
    var rest := SstSplits(name, StrategyFor(upsert), corpus.nativeSplit, sd);
    StoreSstSplitsAfterMaps(dataPath, name, scheme, upsert, load, split);
    SstSplitsTrace(name, StrategyFor(upsert), corpus.nativeSplit, sd);
    AfterWordMaps(StoreSst(dataPath, name, scheme, upsert, load, split), rest);
  }
}

=== FILE: store.dfy ===
/** What the pipelines hand to the document store, recorded as a trace of
    actions instead of being executed. The store primitives themselves are
    not part of this model: an action names the primitive and its arguments. */
module Store {
  import opened Outcomes

  /** A sentence: the word ids of its tokens. */
  type Sentence = seq<int>

  /** The three split names, in the order the pipelines visit them. */
  const SetNames: seq<string> := ["train", "valid", "test"]

  /** How documents keyed by dataset name are written: `upsert` selects
      replacing an existing document, otherwise a document is only inserted
      when none with the key exists. */
  datatype Strategy = InsertIfAbsent | ReplaceIfExists

  function StrategyFor(upsert: bool): (s: Strategy)
    ensures s == ReplaceIfExists <==> upsert
  {
    if upsert then ReplaceIfExists else InsertIfAbsent
  }

  /** The filter a write is keyed by: the dataset name, or name and split. */
  datatype Key = ByName(name: string) | ByNameSet(name: string, setName: string)

  datatype Doc =
    | WordToIdDoc(name: string, vocab: map<string, int>)
    | IdToWordDoc(name: string, words: seq<string>)
    | SentencesDoc(name: string, setName: string, data: seq<Sentence>, ids: seq<int>)

  /** One split of the record handed to the default dataset store. */
  datatype Split = Split(data: seq<Sentence>, labels: seq<int>, ids: seq<int>)

  /** The split dict, in insertion order. */
  type DataDict = seq<(string, Split)>

  datatype Action =
    | Write(strategy: Strategy, collection: string, key: Key, doc: Doc)
    | WarnNoTrain                                   // the "no train data" warning
    | StoreByDefault(name: string, dict: DataDict)  // the default per-split persistence
    | Skipped(kind: string)                         // an entry of unknown type
    | Inserted(name: string, category: string)      // the completion marker

  /** The actions performed, and the exception that stopped them, if any. */
  datatype Run = Run(actions: seq<Action>, failure: Option<Failure>)

  /** Every write in `acts` uses strategy `s`. */
  predicate WritesUse(acts: seq<Action>, s: Strategy) {
    forall i :: 0 <= i < |acts| && acts[i].Write? ==> acts[i].strategy == s
  }

  /** `acts` holds neither completion markers nor skips. */
  predicate NoMarker(acts: seq<Action>) {
    forall i :: 0 <= i < |acts| ==> !acts[i].Inserted? && !acts[i].Skipped?
  }

  lemma WritesUseAppend(a: seq<Action>, b: seq<Action>, s: Strategy)
    requires WritesUse(a, s) && WritesUse(b, s)
    ensures WritesUse(a + b, s)
  {
  }

  lemma NoMarkerAppend(a: seq<Action>, b: seq<Action>)
    requires NoMarker(a) && NoMarker(b)
    ensures NoMarker(a + b)
  {
  }

  /** The dataset names of the completion markers in `acts`, in order. */
  function Markers(acts: seq<Action>): seq<string> {
    if |acts| == 0 then []
    else (if acts[0].Inserted? then [acts[0].name] else []) + Markers(acts[1..])
  }

  lemma {:induction false} MarkersAppend(a: seq<Action>, b: seq<Action>)
    ensures Markers(a + b) == Markers(a) + Markers(b)
  {
    if |a| == 0 {
      assert a + b == b;
    } else {
      assert (a + b)[0] == a[0];
      assert (a + b)[1..] == a[1..] + b;
      MarkersAppend(a[1..], b);
    }
  }

  lemma {:induction false} NoMarkerMeansNoMarkers(acts: seq<Action>)
    requires NoMarker(acts)
    ensures Markers(acts) == []
  {
    if |acts| > 0 {
      NoMarkerMeansNoMarkers(acts[1..]);
    }
  }
}
